=== FILE: README.md ===
# Rock-paper-scissors game servers, modelled in Dafny

This project models the game logic of two servers:

- **serverFlask.py.** A socket.io server runs one elimination game. Players connect, show a hand
  sign (recognised from hand landmarks by a keypoint classifier), and declare themselves ready.
  When every player still in the game is ready, `gameResult` decides the round. If all signs are
  recognised and exactly two hands are shown, the players showing the losing hand are marked
  `losed`. When one player is left in, the game ends.
- **rock-paper-scissors-master/node_server/server.js.** This is a two-player room prototype. It
  holds `getWinner` over the hand codes 0/1/2 and the `ROOM.JOIN`, `ROOM.READY` and `ROOM.RESULT`
  handlers over a single room.

Every handler is a pure function. It returns three things:
- the new state;
- the list of messages it broadcast, in order;
- whether an exception escaped it. When one did, the state is the one reached at the point of the
  raise, because the source mutates module-level state in place.

Files:

- `wrappers.dfy`: `Option`.
- `signs.dfy`: the `Action` enum, the `victories` table as data, and the class-id mapping of
  `recognize`.
- `assoc.dfy`: an insertion-ordered association list. It models the Python `players` dict and the
  JavaScript user `Map`:
  - assigning to a present key rewrites it in place;
  - assigning to a new key appends it;
  - deleting a key keeps the order of the rest.
- `registry.dfy`: a player entry (`ready`, `losed`, `hand_sign_id`), the signs of the players still
  in the game (`playersInGame`), and the whole-dict updates of `gameResult` and `restartGame`.
- `resolver.dfy`: the decision half of `gameResult` as the pure function `Resolve`. It covers the
  recognition guard, the draw test on the number of distinct signs, and the first-encountered pair
  looked up in `victories`. It also holds the proof that the outcome depends only on the set of
  signs shown.
- `session.dfy`: the handlers `getGameStatus`, `connect`, `recognize`, `gameResult`,
  `playerReady`, `restartGame` and `disconnect`.
- `room.dfy`: `getWinner` over JavaScript values (`undefined`, `null`, numbers) and the three room
  handlers.

The code has these quirks, and the model follows the code:

- A handler called with an unknown sid raises `KeyError` (`players[sid]`). In the model this is a
  `requires`, since socket.io only calls handlers for connected sessions.
- `gameResult` clears `ready` for every player still in the game. It does so even when the round
  then stops because some sign is `Undefined` or `Unrecognized`.
- `hand_sign_id` is never reset between rounds.
- The two signs compared are the first one met and the first different one, in dict order.
  `WinnerIgnoresPlayerOrder` proves the outcome does not depend on that order.
- A decided round emits no `'winner'` message. Only a draw emits `'winner'` with `None`.
- `gameResult` with nobody in the game reaches `victories[None]` and raises `KeyError`, after
  having set `isGameStarted = True`.
- `disconnect` clears `isGameStarted` when more than one player is still in. Its comment describes
  the opposite; see Findings.
- `recognize` with no coordinates stores Rock. It maps every class id other than 0 and 1 to
  Scissors, so it never stores `Unrecognized`.

## Model

| member | source | states |
|---|---|---|
| Signs.VictoriesOnlyHands | serverFlask.py:24-28 | The table's keys are exactly Paper, Rock and Scissors; Undefined and Unrecognized are not keys; every sign in the relation is a hand |
| Signs.VictoriesIsCycle | serverFlask.py:24-28 | Scissors beats Paper, Paper beats Rock, Rock beats Scissors; the relation is irreflexive and asymmetric; each hand beats exactly one sign and is beaten by exactly one |
| Signs.HandsComparable | serverFlask.py:24-28 | Of two different hands exactly one beats the other |
| Signs.FromClassId | serverFlask.py:112-117 | The classifier's id always becomes a hand; ids 0, 1 and 2 become the hand whose enum value is that id, and every other id becomes Scissors |
| Assoc.Put | serverFlask.py:94-98 | Dict assignment: the key is present afterwards with the new value; every other key keeps its presence, value and position; a new key is appended and grows the dict by one; keys stay distinct |
| Assoc.Remove | serverFlask.py:208 | `del`: the dict shrinks by one; every other key keeps its presence and value; the remaining entries keep their order, those after the deleted one moving down by one; with distinct keys, the deleted key is gone |
| Registry.ActiveSignsMembers | serverFlask.py:128-131 | A sign is among the signs of `playersInGame` exactly when some player who has not lost shows it |
| Registry.KnockedSurvivors | serverFlask.py:170-174 | After the elimination loop for winning sign w, the players left in all show w, and there are as many of them as w occurred among the signs before |
| Registry.DecidedPlayers | serverFlask.py:134-174 | The ready-clearing and elimination loops together set `losed` exactly for the in-game players not showing w and leave the players showing w in |
| Resolver.FirstOther | serverFlask.py:150-158 | The search for `secondPlayerSign` returns a shown sign different from the first one, or nothing when every shown sign equals the first |
| Resolver.FirstOtherIsFirst | serverFlask.py:152-158 | The search returns the first sign, in dict order, that differs from the first player's, whatever comes after it |
| Resolver.TwoSignsPicked | serverFlask.py:142-158 | When all signs are recognised and their number of distinct values is neither 1 nor 3 nor 0, the search finds a second sign, and the two signs are all the distinct signs |
| Resolver.Resolve | serverFlask.py:132-163 | Unrecognised exactly when some sign is Undefined/Unrecognized; Draw exactly when all are recognised and one or three distinct hands appear; the failing empty round exactly when nobody is in; otherwise a winner that is shown and beats every other shown sign |
| Resolver.WinnerUnique | serverFlask.py:160-163 | At most one sign is shown and beats every other shown sign |
| Resolver.DecidedBy | serverFlask.py:150-163 | With exactly two recognised hands, the round is decided for the hand that beats every other hand shown, whichever player is met first |
| Resolver.ResolveOrderFree | serverFlask.py:150-163 | Two lists of signs with the same distinct values give the same outcome, whatever their order or multiplicities |
| Session.GetGameStatus | serverFlask.py:86-88 | Broadcasts the current `isGameStarted` and changes nothing |
| Session.Connect | serverFlask.py:91-100 | Adds the sid as not ready, with sign Undefined and `losed` equal to `isGameStarted`, appended at the end when new; no other player and not the flag change; the new dict is broadcast |
| Session.Recognize | serverFlask.py:103-122 | Only the caller's sign changes: Rock without coordinates, otherwise the hand for the class id, never Undefined or Unrecognized; the dict is broadcast |
| Session.GameResult | serverFlask.py:125-182 | Keeps every sid and sign; clears `ready` of every player still in and only of them; never puts a lost player back in; raises exactly when nobody is in the game |
| Session.UndecidedRound | serverFlask.py:127-148 | With an unrecognised sign, or one or three distinct hands, no `losed` flag changes and the game is started; only the draw broadcasts `'winner'` (None), and the unrecognised round broadcasts nothing |
| Session.DecidedRound | serverFlask.py:150-174 | With exactly two hands, the in-game players not showing the winning hand become `losed`; no other `losed` flag changes |
| Session.DecidedSurvivors | serverFlask.py:150-174 | After a decided round the players still in are exactly those that were in and showed the winning hand: their number is the count of that hand, at least one, and every sign still in is the winner |
| Session.DecidedRoundEnds | serverFlask.py:169-182 | After a decided round the game is stopped, with a `gameStatusChange` broadcast, exactly when one player is left in; the events are exactly `gameStatusChange(false)` then the dict when one player is left in, and only the dict otherwise, so no `'winner'` message |
| Session.PlayerReady | serverFlask.py:185-194 | Broadcasts the dict with only the caller's entry changed, to `ready`; runs `gameResult` on it exactly when every player still in is ready, after which no player still in is ready |
| Session.RestartGame | serverFlask.py:197-202 | Stops the game and puts every player back in, keeping membership, order, `ready` and signs; broadcasts nothing |
| Session.Disconnect | serverFlask.py:205-214 | Removes exactly the sid, keeping every other player; when some player still in is not ready nothing else changes and nothing is broadcast |
| Session.DisconnectRound | serverFlask.py:215-228 | When the remaining players still in are all ready a round runs: the players afterwards are those the round leaves and its broadcasts come first; when it fails the result is exactly the round's, with `isGameStarted` left set; otherwise the round's broadcasts are followed by `gameStatusChange(false)` exactly when more than one player is still in, then the dict, and nothing else; it fails exactly when nobody is in; otherwise the game is left started exactly when one player was in, with a status broadcast exactly when it is stopped, and the dict broadcast last |
| Session.RoundLeaves | serverFlask.py:169-179 | A round that does not fail leaves the game started when more than one player stays in, and otherwise started exactly when one player was in before |
| Session.WinnerIgnoresPlayerOrder | serverFlask.py:150-163 | Any rearrangement of the players dict gives the same round outcome |
| Session.DisconnectIntended | serverFlask.py:224-227 | Corrected `disconnect`: never fails, removes the sid (gone, with distinct keys) and keeps every other key; when nobody is left in it runs no round and stops the game; otherwise a triggered round's players are kept, its broadcasts come first, then `gameStatusChange(false)` only when the round left the game started with at most one player in, then the dict, and the game is started exactly when more than one player is still in |
| Session.IntendedRound | serverFlask.py:224-228 | After a round the corrected handler runs, the broadcasts are exactly the round's, then `gameStatusChange(false)` only when the round left the game started with at most one player in, then the dict |
| Session.DisconnectStopsRunningGame | serverFlask.py:224-227 | Example: after the third player leaves, two players who drew stay in but the game is reported stopped; the corrected handler keeps it started |
| Session.FirstConnect | serverFlask.py:91-100 | The first connection after start-up gives a dict holding only the caller, not ready, not lost, with no sign, and the game stopped |
| Session.LastLeaveLocksOut | serverFlask.py:205-217 | Example: when the only player leaves, the handler raises and leaves an empty game with `isGameStarted` set; the corrected handler leaves the game stopped |
| Session.EmptyStartedGameLocksOut | serverFlask.py:91-100 | For any sid: connecting to an empty started game registers the player with `losed` set, and `playerReady` then raises again |
| Room.HandOf | rock-paper-scissors-master/node_server/server.js:5-22 | A value is a hand code exactly when it is 0, 1 or 2, and then it is the enum value of that hand |
| Room.GetWinner | rock-paper-scissors-master/node_server/server.js:5-22 | Equal values give 0; every defined result lies in {-1, 0, 1}; the result is undefined exactly when the values differ and one is not a code |
| Room.GetWinnerAntisymmetric | rock-paper-scissors-master/node_server/server.js:8-21 | On codes, swapping the arguments negates the result |
| Room.GetWinnerAgreesWithVictories | rock-paper-scissors-master/node_server/server.js:8-21 | On codes, 1 exactly when the first hand beats the second per `victories`, -1 exactly when it is beaten, 0 exactly for the same hand |
| Room.Join | rock-paper-scissors-master/node_server/server.js:25-49 | The first join creates the room holding only the caller, not ready with a null result, and sends `ROOM.WAIT`; a room of one user gains the caller at the end, keeps the waiting user in place, holds two users unless the caller was already the one, and both get `ROOM.READY`; any other room is left alone; a room never grows past two |
| Room.JoinsKeepPair | rock-paper-scissors-master/node_server/server.js:36-47 | Any run of joins leaves the room with at most two users |
| Room.Ready | rock-paper-scissors-master/node_server/server.js:51-63 | Rewrites only the caller's entry with `ready` set, creating an entry that holds only `ready` for an absent caller; sends `ROOM.GO` to everyone exactly when every user is ready; before any join there is no room and it fails with the rooms unchanged |
| Room.Result | rock-paper-scissors-master/node_server/server.js:77-104 | Fails before any join, when there is no room; does nothing while some result is null; with fewer than two users it fails; otherwise it sends everyone the id of the first or second user when that user's hand beats the other's, and null for a tie or a non-code |

## Left out

- Landmark preprocessing (`calc_landmark_list`, `pre_process_landmark`) is floating-point scaling
  and normalisation. It is not modelled.
- Session.Recognize: the failing preprocessing path is not modelled. `max([])` on an empty
  coordinate list and a zero `max_value` raise before the sign is stored, leaving the state unchanged
  with no broadcast. `classId` stands for a successful classification.
- The keypoint classifier is an external model. Its output is the `classId` parameter of
  `Recognize`; `None` stands for a message without coordinates or with `None` coordinates.
- `NpEncoder` and the pydantic `Point` are serialisation and validation helpers.
- The socket.io transport: server set-up, `eventlet` listening, and `socket.join` room membership.
  A broadcast is an event appended to the returned list, and `ROOM.*` messages carry only a
  target (the caller, or the others in the room).
- `print` and `console.log` logging.
- `ROOM.RECOGNIZE` forwards coordinates to another service over HTTP with axios.
- `IP` and `io` are undeclared transport globals, and `PORT` is transport configuration. `roomId` is also undeclared; the model
  uses one fixed room id.
- front/src/App.tsx is user interface and camera code with no game logic.
- Concurrency: every handler is one atomic step.
- A user's `result` is never written in server.js, so it is taken as given state. Stored results
  are limited to `undefined`, `null` and integers.

## Findings

| source | as written | input that shows it | evidently intended | confidence | as-written member | corrected member |
|---|---|---|---|---|---|---|
| serverFlask.py:224-227 | `if len(playersInGame) > 1:` clears `isGameStarted` while several players are still in | players a, b ready with Rock and c not ready with Paper, game started; c disconnects: the round is a draw, two players stay in, and the game is reported stopped | the comment "one non-loser left, the game is over": stop the game when at most one player is still in | not executed | Session.DisconnectStopsRunningGame | Session.DisconnectIntended |
| serverFlask.py:205-217 | with no players left, `disconnect` still calls `gameResult`, which sets `isGameStarted = True` and then fails on `victories[None]` | the only player disconnects; the next player to connect is created with `losed` true, and `playerReady` fails the same way until a restart | no round when nobody is left in, and the game stopped | not executed | Session.LastLeaveLocksOut | Session.DisconnectIntended |

=== FILE: assoc.dfy ===
/**
 * An insertion-ordered association list: the model of a Python `dict` and of a JavaScript `Map`.
 * Assigning to a present key rewrites the entry in place; assigning to a new key appends it;
 * deleting a key closes the gap and keeps the order of the other entries.
 */
module Assoc {

  /** `k` is a key of `a`. */
  predicate Has<K(==,!new), V>(a: seq<(K, V)>, k: K)
  {
    exists i :: 0 <= i < |a| && a[i].0 == k
  }

  /** No key occurs twice: what a dict or a Map guarantees by construction. */
  predicate DistinctKeys<K(==,!new), V>(a: seq<(K, V)>)
  {
    forall i, j :: 0 <= i < j < |a| ==> a[i].0 != a[j].0
  }

  /** The position of the first entry with key `k`. */
  function IndexOf<K(==,!new), V>(a: seq<(K, V)>, k: K): (i: nat)
    requires Has(a, k)
    ensures i < |a| && a[i].0 == k
    ensures forall j :: 0 <= j < i ==> a[j].0 != k
  {
    if a[0].0 == k then 0
    else
      assert Has(a[1..], k) by {
        var i :| 0 <= i < |a| && a[i].0 == k;
        assert a[1..][i - 1].0 == k;
      }
      IndexOf(a[1..], k) + 1
  }

  /** The value stored under `k` (the source's `d[k]`). */
  function Get<K(==,!new), V>(a: seq<(K, V)>, k: K): V
    requires Has(a, k)
  {
    a[IndexOf(a, k)].1
  }

  /** `d[k] = v`: rewrites the entry of a present key in place, or appends a new entry. */
  function Put<K(==,!new), V>(a: seq<(K, V)>, k: K, v: V): (r: seq<(K, V)>)
    ensures Has(r, k) && Get(r, k) == v
    ensures |r| == if Has(a, k) then |a| else |a| + 1
    ensures forall i :: 0 <= i < |a| && a[i].0 != k ==> r[i] == a[i]
    ensures !Has(a, k) ==> r[|a|] == (k, v)
    ensures forall k' :: k' != k ==> (Has(r, k') <==> Has(a, k'))
    ensures forall k' :: k' != k && Has(a, k') ==> Get(r, k') == Get(a, k')
    ensures DistinctKeys(a) ==> DistinctKeys(r)
  {
    if Has(a, k) then
      var i := IndexOf(a, k);
      var r := a[i := (k, v)];
      FirstIndex(r, k, i);
      assert forall k' :: k' != k && Has(a, k') ==> Has(r, k') && IndexOf(r, k') == IndexOf(a, k') by {
        forall k' | k' != k && Has(a, k')
          ensures Has(r, k') && IndexOf(r, k') == IndexOf(a, k')
        {
          FirstIndex(r, k', IndexOf(a, k'));
        }
      }
      r
    else
      var r := a + [(k, v)];
      assert r[|a|].0 == k;
      FirstIndex(r, k, |a|);
      assert forall k' :: k' != k && Has(a, k') ==> Has(r, k') && IndexOf(r, k') == IndexOf(a, k') by {
        forall k' | k' != k && Has(a, k')
          ensures Has(r, k') && IndexOf(r, k') == IndexOf(a, k')
        {
          FirstIndex(r, k', IndexOf(a, k'));
        }
      }
      r
  }

  /** `del d[k]`: drops the entry of `k`, keeping every other entry in its order. */
  function Remove<K(==,!new), V>(a: seq<(K, V)>, k: K): (r: seq<(K, V)>)
    requires Has(a, k)
    ensures |r| == |a| - 1
    ensures forall k' :: k' != k ==> (Has(r, k') <==> Has(a, k'))
    ensures forall k' :: k' != k && Has(a, k') ==> Get(r, k') == Get(a, k')
    ensures DistinctKeys(a) ==> DistinctKeys(r) && !Has(r, k)
    ensures forall j :: 0 <= j < |r| ==> r[j] == if j < IndexOf(a, k) then a[j] else a[j + 1]
  {
    var i := IndexOf(a, k);
    var r := a[..i] + a[i + 1..];
    DropAt(a, i, r);
    r
  }

  /** The facts behind `Remove`: dropping position `i` keeps the first position of every other key,
      shifted down by one when it lay after `i`. */
  lemma DropAt<K(!new), V>(a: seq<(K, V)>, i: nat, r: seq<(K, V)>)
    requires i < |a| && r == a[..i] + a[i + 1..]
    ensures forall k' :: k' != a[i].0 ==> (Has(r, k') <==> Has(a, k'))
    ensures forall k' :: k' != a[i].0 && Has(a, k') ==> Get(r, k') == Get(a, k')
    ensures DistinctKeys(a) ==> DistinctKeys(r) && !Has(r, a[i].0)
  {
    assert forall j :: 0 <= j < |r| ==> r[j] == if j < i then a[j] else a[j + 1];
    forall k' | k' != a[i].0 && Has(a, k')
      ensures Has(r, k') && Get(r, k') == Get(a, k')
    {
      var j := IndexOf(a, k');
      var j' := if j < i then j else j - 1;
      assert r[j'] == a[j];
      FirstIndex(r, k', j');
    }
    forall k' | Has(r, k')
      ensures Has(a, k')
    {
      var j := IndexOf(r, k');
      assert a[if j < i then j else j + 1].0 == k';
    }
  }

  /** A position whose key occurs at no earlier position is the one `IndexOf` returns. */
  lemma FirstIndex<K(!new), V>(a: seq<(K, V)>, k: K, i: nat)
    requires i < |a| && a[i].0 == k
    requires forall j :: 0 <= j < i ==> a[j].0 != k
    ensures Has(a, k) && IndexOf(a, k) == i
  {
  }

  /** Two lists with the same key at every position have the same keys. */
  lemma SameKeys<K(!new), V>(a: seq<(K, V)>, b: seq<(K, V)>)
    requires |a| == |b| && forall i :: 0 <= i < |a| ==> a[i].0 == b[i].0
    ensures forall k :: Has(a, k) <==> Has(b, k)
    ensures DistinctKeys(a) <==> DistinctKeys(b)
  {
  }

  /** Applies `f` to every value, keeping keys and order (a loop over `d.items()` that updates each entry). */
  function MapValues<K, V>(a: seq<(K, V)>, f: V -> V): (r: seq<(K, V)>)
    ensures |r| == |a|
    ensures forall i :: 0 <= i < |a| ==> r[i] == (a[i].0, f(a[i].1))
  {
    if |a| == 0 then []
    else [(a[0].0, f(a[0].1))] + MapValues(a[1..], f)
  }
}

=== FILE: registry.dfy ===
/**
 * The `players` dict of serverFlask.py: one entry per connected sid, in connection order, holding
 * the `ready`, `losed` and `hand_sign_id` fields, together with the whole-dict updates the
 * handlers perform and the view of the players still in the game.
 */
module Registry {
  import opened Signs
  import opened Assoc

  /** A socket.io session id. */
  type Sid = string

  /** One value of the `players` dict. */
  datatype Player = Player(ready: bool, losed: bool, sign: Action)

  /** The `players` dict, in insertion order. */
  type Players = seq<(Sid, Player)>

  /** The signs of the players that have not lost (`playersInGame`), in dict order. */
  function ActiveSigns(ps: Players): (s: seq<Action>)
    ensures |s| <= |ps|
  {
    if |ps| == 0 then []
    else if ps[0].1.losed then ActiveSigns(ps[1..])
    else [ps[0].1.sign] + ActiveSigns(ps[1..])
  }

  /** A sign is in the game exactly when some player that has not lost shows it. */
  lemma {:induction false} ActiveSignsMembers(ps: Players)
    ensures forall e :: e in ps && !e.1.losed ==> e.1.sign in ActiveSigns(ps)
    ensures forall a :: a in ActiveSigns(ps) ==> exists e :: e in ps && !e.1.losed && e.1.sign == a
  {
    if |ps| > 0 {
      ActiveSignsMembers(ps[1..]);
      assert ps == [ps[0]] + ps[1..];
    }
  }

  /** Every player is ready or has lost: the test that starts a round. */
  predicate AllActiveReady(ps: Players)
  {
    forall i :: 0 <= i < |ps| ==> ps[i].1.ready || ps[i].1.losed
  }

  /** A player still in the game has its `ready` flag consumed by a round. */
  function Rest(p: Player): Player
  {
    if p.losed then p else p.(ready := false)
  }

  /** A player still in the game whose sign is not the winning one loses. */
  function Knock(w: Action, p: Player): Player
  {
    if !p.losed && p.sign != w then p.(losed := true) else p
  }

  /** A restart puts the player back into the game. */
  function Revive(p: Player): Player
  {
    p.(losed := false)
  }

  /** The first loop of `gameResult`: clears `ready` of every player in the game. */
  function ClearReady(ps: Players): Players
  {
    MapValues(ps, Rest)
  }

  /** The elimination loop of `gameResult` for winning sign `w`. */
  function Eliminate(ps: Players, w: Action): Players
  {
    MapValues(ps, p => Knock(w, p))
  }

  /** The loop of `restartGame`. */
  function ReviveAll(ps: Players): Players
  {
    MapValues(ps, Revive)
  }

  /** An update that keeps every `losed` flag and sign leaves the signs in the game as they were. */
  lemma {:induction false} ActiveSignsKept(ps: Players, qs: Players)
    requires |qs| == |ps|
    requires forall i :: 0 <= i < |ps| ==> qs[i].1.losed == ps[i].1.losed && qs[i].1.sign == ps[i].1.sign
    ensures ActiveSigns(qs) == ActiveSigns(ps)
  {
    if |ps| > 0 {
      ActiveSignsKept(ps[1..], qs[1..]);
    }
  }

  /** After elimination for `w`, the players still in the game are exactly those that showed `w`:
      as many as `w` occurs among the signs before, and all of them showing `w`. */
  lemma {:induction false} KnockedSurvivors(ps: Players, qs: Players, w: Action)
    requires |qs| == |ps|
    requires forall i :: 0 <= i < |ps| ==> qs[i].1 == Knock(w, ps[i].1)
    ensures |ActiveSigns(qs)| == multiset(ActiveSigns(ps))[w]
    ensures forall a :: a in ActiveSigns(qs) ==> a == w
  {
    if |ps| > 0 {
      KnockedSurvivors(ps[1..], qs[1..], w);
    }
  }

  /** The two loops of a decided round for winning sign `w`: every player in the game who does not
      show `w` is out, nobody else changes `losed`, and the players left in are those showing `w`. */
  lemma {:induction false} DecidedPlayers(ps: Players, w: Action)
    ensures var q := Eliminate(ClearReady(ps), w);
      && |q| == |ps|
      && (forall i :: 0 <= i < |ps| ==> q[i].1.losed == (ps[i].1.losed || ps[i].1.sign != w))
      && |ActiveSigns(q)| == multiset(ActiveSigns(ps))[w]
      && (forall a :: a in ActiveSigns(q) ==> a == w)
  {
    var cleared := ClearReady(ps);
    ActiveSignsKept(ps, cleared);
    KnockedSurvivors(cleared, Eliminate(cleared, w), w);
  }
}

=== FILE: resolver.dfy ===
/**
 * The decision part of `gameResult` in serverFlask.py, as a pure function of the signs shown by the
 * players still in the game, in dict order: whether every sign was recognised, whether the round
 * is a draw, and otherwise which sign wins.
 */
module Resolver {
  import opened Wrappers
  import opened Signs

  /** What a round comes to. `NoneInGame` is the empty round, where the source fails on `victories[None]`. */
  datatype Outcome = Unrecognised | Draw | Decided(winner: Action) | NoneInGame

  /** The set `playersSigns`. */
  function Distinct(signs: seq<Action>): set<Action>
  {
    set a | a in signs
  }

  /** No sign is `Undefined` or `Unrecognized`. */
  predicate AllRecognized(signs: seq<Action>)
  {
    forall i :: 0 <= i < |signs| ==> IsHand(signs[i])
  }

  /** `w` is shown by someone and beats every other sign shown: the order-free meaning of a winner. */
  predicate WinsRound(w: Action, signs: seq<Action>)
  {
    w in signs && forall a :: a in signs && a != w ==> Beats(w, a)
  }

  /** The first sign, in order, that differs from `first` (the search for `secondPlayerSign`). */
  function FirstOther(signs: seq<Action>, first: Action): (r: Option<Action>)
    ensures r.Some? ==> r.value in signs && r.value != first
    ensures r.None? ==> forall a :: a in signs ==> a == first
  {
    if |signs| == 0 then None
    else if signs[0] != first then Some(signs[0])
    else
      assert signs == [signs[0]] + signs[1..];
      FirstOther(signs[1..], first)
  }

  /** The search returns the first sign, in order, that differs from `first`, as the `break` makes
      it: whatever precedes that sign equals `first`. */
  lemma {:induction false} FirstOtherIsFirst(signs: seq<Action>, first: Action)
    ensures forall i :: 0 <= i < |signs| && signs[i] != first && (forall j :: 0 <= j < i ==> signs[j] == first) ==>
      FirstOther(signs, first) == Some(signs[i])
  {
    if |signs| > 0 && signs[0] == first {
      var rest := signs[1..];
      FirstOtherIsFirst(rest, first);
      forall i | 0 <= i < |signs| && signs[i] != first && (forall j :: 0 <= j < i ==> signs[j] == first)
        ensures FirstOther(signs, first) == Some(signs[i])
      {
        assert i > 0 && rest[i - 1] == signs[i];
        assert forall j :: 0 <= j < i - 1 ==> rest[j] == signs[j + 1];
      }
    }
  }

  /** A set of hands has one element for each of Paper, Rock and Scissors it contains. */
  lemma HandSetSize(s: set<Action>)
    requires forall a :: a in s ==> IsHand(a)
    ensures |s| == (if Paper in s then 1 else 0) + (if Rock in s then 1 else 0) + (if Scissors in s then 1 else 0)
  {
    var p := if Paper in s then {Paper} else {};
    var r := if Rock in s then {Rock} else {};
    var c := if Scissors in s then {Scissors} else {};
    assert s == p + r + c;
    assert p * r == {} && (p + r) * c == {};
  }

  /** Two distinct recognised signs: the search finds the other one, and the two are all there is. */
  lemma TwoSignsPicked(signs: seq<Action>)
    requires AllRecognized(signs) && |signs| > 0
    requires |Distinct(signs)| != 1 && |Distinct(signs)| != 3
    ensures FirstOther(signs, signs[0]).Some?
    ensures Distinct(signs) == {signs[0], FirstOther(signs, signs[0]).value}
  {
    var d := Distinct(signs);
    HandSetSize(d);
    assert signs[0] in d;
  }

  /** The decision of `gameResult`: the recognition guard, the draw test on the number of distinct
      signs, and for two signs the first one met compared with the first different one through the
      `victories` table. */
  function Resolve(signs: seq<Action>): (o: Outcome)
    ensures o == Unrecognised <==> !AllRecognized(signs)
    ensures o == Draw <==> AllRecognized(signs) && (|Distinct(signs)| == 1 || |Distinct(signs)| == 3)
    ensures o == NoneInGame <==> |signs| == 0
    ensures o.Decided? <==> AllRecognized(signs) && |Distinct(signs)| == 2
    ensures o.Decided? ==> WinsRound(o.winner, signs)
  {
    if !AllRecognized(signs) then Unrecognised
    else
      var n := |Distinct(signs)|;
      HandSetSize(Distinct(signs));
      if n == 3 || n == 1 then Draw
      else if |signs| == 0 then NoneInGame
      else
        assert signs[0] in Distinct(signs);
        var first := signs[0];
        TwoSignsPicked(signs);
        var second := FirstOther(signs, first).value;
        HandsComparable(first, second);
        var defeats := Victories[first];
        if second in defeats then Decided(first) else Decided(second)
  }

  /** There are no more distinct signs than signs. */
  lemma {:induction false} DistinctAtMostLength(signs: seq<Action>)
    ensures |Distinct(signs)| <= |signs|
  {
    if |signs| > 0 {
      DistinctAtMostLength(signs[1..]);
      assert Distinct(signs) == Distinct(signs[1..]) + {signs[0]};
    }
  }

  /** At most one sign can win a round. */
  lemma WinnerUnique(w1: Action, w2: Action, signs: seq<Action>)
    requires WinsRound(w1, signs) && WinsRound(w2, signs)
    ensures w1 == w2
  {
  }

  /** With two distinct recognised signs, the round is decided for the sign that beats the other. */
  lemma DecidedBy(w: Action, signs: seq<Action>)
    requires AllRecognized(signs) && |Distinct(signs)| == 2 && WinsRound(w, signs)
    ensures Resolve(signs) == Decided(w)
  {
    WinnerUnique(w, Resolve(signs).winner, signs);
  }

  /** The outcome depends only on which signs were shown, not on the order the players are stored
      in nor on how many players showed each sign. */
  lemma ResolveOrderFree(s1: seq<Action>, s2: seq<Action>)
    requires Distinct(s1) == Distinct(s2)
    ensures Resolve(s1) == Resolve(s2)
  {
    assert forall a :: a in s1 <==> a in Distinct(s1);
    assert forall a :: a in s2 <==> a in Distinct(s2);
    assert AllRecognized(s1) <==> AllRecognized(s2) by {
      assert AllRecognized(s1) <==> forall a :: a in s1 ==> IsHand(a);
      assert AllRecognized(s2) <==> forall a :: a in s2 ==> IsHand(a);
    }
    var o1, o2 := Resolve(s1), Resolve(s2);
    if o1.Decided? {
      assert WinsRound(o1.winner, s2);
      WinnerUnique(o1.winner, o2.winner, s2);
    }
  }
}

=== FILE: room.dfy ===
/**
 * The two-player room prototype of rock-paper-scissors-master/node_server/server.js: `getWinner`
 * and the `ROOM.JOIN`, `ROOM.READY` and `ROOM.RESULT` handlers over the `rooms` Map. Every handler
 * works on the one room `roomId`; each returns the new Map, the messages sent, and whether a
 * `TypeError` escaped it.
 */
module Room {
  import opened Wrappers
  import opened Signs
  import opened Assoc

  /** The JavaScript values a hand code or a stored `result` can take. */
  datatype JsValue = Undef | Null | Num(n: int)

  /** One of the codes 0, 1, 2 that `getWinner` compares. */
  predicate IsCode(v: JsValue)
  {
    v.Num? && 0 <= v.n <= 2
  }

  /** The hand a code stands for, in the encoding shared with the `Action` enum. */
  function HandOf(v: JsValue): (h: Option<Action>)
    ensures h.Some? <==> IsCode(v)
    ensures h.Some? ==> IsHand(h.value) && v == Num(Code(h.value))
  {
    if v == Num(0) then Some(Paper)
    else if v == Num(1) then Some(Rock)
    else if v == Num(2) then Some(Scissors)
    else None
  }

  /** `getWinner`: 1 when the first code wins, -1 when the second does, 0 for equal values, and
      `undefined` (here `None`) when the values differ and one is not a code. */
  function GetWinner(r1: JsValue, r2: JsValue): (w: Option<int>)
    ensures r1 == r2 ==> w == Some(0)
    ensures w.Some? ==> -1 <= w.value <= 1
    ensures w.None? <==> r1 != r2 && !(IsCode(r1) && IsCode(r2))
  {
    if r1 == r2 then Some(0)
    else if r1 == Num(0) && r2 == Num(1) then Some(1)
    else if r1 == Num(0) && r2 == Num(2) then Some(-1)
    else if r1 == Num(1) && r2 == Num(0) then Some(-1)
    else if r1 == Num(1) && r2 == Num(2) then Some(1)
    else if r1 == Num(2) && r2 == Num(0) then Some(1)
    else if r1 == Num(2) && r2 == Num(1) then Some(-1)
    else None
  }

  /** Swapping the arguments negates the result. */
  lemma GetWinnerAntisymmetric(r1: JsValue, r2: JsValue)
    requires IsCode(r1) && IsCode(r2)
    ensures GetWinner(r1, r2).Some? && GetWinner(r2, r1).Some?
    ensures GetWinner(r2, r1).value == -GetWinner(r1, r2).value
  {
  }

  /** On codes `getWinner` is the `victories` table of the Python server: 1 exactly when the first
      hand beats the second, -1 exactly when it is beaten, 0 exactly for the same hand. */
  lemma GetWinnerAgreesWithVictories(a: Action, b: Action)
    requires IsHand(a) && IsHand(b)
    ensures GetWinner(Num(Code(a)), Num(Code(b))) == Some(1) <==> Beats(a, b)
    ensures GetWinner(Num(Code(a)), Num(Code(b))) == Some(-1) <==> Beats(b, a)
    ensures GetWinner(Num(Code(a)), Num(Code(b))) == Some(0) <==> a == b
  {
  }

  /** A socket id. */
  type Sid = string

  /** A value of a room's user Map. `name` is absent for an entry that `ROOM.READY` creates. */
  datatype User = User(name: Option<string>, ready: bool, result: JsValue)

  /** A room's users, in insertion order. */
  type Users = seq<(Sid, User)>

  /** The `rooms` Map, keyed by room id. */
  type Rooms = map<string, Users>

  /** The one room id every handler uses (`roomId` is not declared in the file). */
  const RoomId: string := "room"

  /** Who a message goes to: the calling socket, or the other sockets of the room. */
  datatype Target = ToCaller | ToOthers

  /** The messages the handlers send. */
  datatype Message = Wait | ReadyMsg | Go | ResultMsg(winner: Option<Sid>)

  datatype Emit = Emit(to: Target, msg: Message)

  /** The result of one handler. */
  datatype RoomStep = RoomStep(rooms: Rooms, emits: seq<Emit>, raised: bool)

  /** The entry `ROOM.JOIN` creates. */
  function NewUser(sid: Sid): User
  {
    User(Some("user " + sid), false, Null)
  }

  /** `ROOM.JOIN`: the first join creates the room holding the caller; a later join adds the caller
      only to a room of one user; a full room ignores the join. */
  function Join(rooms: Rooms, sid: Sid): (s: RoomStep)
    ensures RoomId in s.rooms && !s.raised
    ensures forall k :: k != RoomId ==> (k in s.rooms <==> k in rooms)
    ensures forall k :: k != RoomId && k in rooms ==> s.rooms[k] == rooms[k]
    ensures RoomId !in rooms ==> s.rooms[RoomId] == [(sid, NewUser(sid))] && s.emits == [Emit(ToCaller, Wait)]
    ensures RoomId in rooms && |rooms[RoomId]| != 1 ==> s.rooms == rooms && s.emits == []
    ensures RoomId in rooms && |rooms[RoomId]| == 1 ==>
      && Has(s.rooms[RoomId], sid) && Get(s.rooms[RoomId], sid) == NewUser(sid)
      && |s.rooms[RoomId]| == (if Has(rooms[RoomId], sid) then 1 else 2)
      && (forall i :: 0 <= i < |rooms[RoomId]| && rooms[RoomId][i].0 != sid ==>
            s.rooms[RoomId][i] == rooms[RoomId][i])
      && s.emits == [Emit(ToOthers, ReadyMsg), Emit(ToCaller, ReadyMsg)]
    ensures RoomId in rooms ==> |s.rooms[RoomId]| <= if |rooms[RoomId]| <= 2 then 2 else |rooms[RoomId]|
  {
    if RoomId !in rooms then
      RoomStep(rooms[RoomId := [(sid, NewUser(sid))]], [Emit(ToCaller, Wait)], false)
    else if |rooms[RoomId]| == 1 then
      RoomStep(rooms[RoomId := Put(rooms[RoomId], sid, NewUser(sid))],
               [Emit(ToOthers, ReadyMsg), Emit(ToCaller, ReadyMsg)], false)
    else
      RoomStep(rooms, [], false)
  }

  /** A run of `ROOM.JOIN` events, one per socket in `sids`. */
  function JoinAll(rooms: Rooms, sids: seq<Sid>): Rooms
    decreases |sids|
  {
    if |sids| == 0 then rooms
    else JoinAll(Join(rooms, sids[0]).rooms, sids[1..])
  }

  /** However many sockets join, starting from no room or a room of at most two users, the room
      never holds more than two users. */
  lemma {:induction false} JoinsKeepPair(rooms: Rooms, sids: seq<Sid>)
    requires RoomId !in rooms || |rooms[RoomId]| <= 2
    ensures var r := JoinAll(rooms, sids); RoomId !in r || |r[RoomId]| <= 2
    decreases |sids|
  {
    if |sids| > 0 {
      JoinsKeepPair(Join(rooms, sids[0]).rooms, sids[1..]);
    }
  }

  /** Every user of the room is ready. */
  predicate AllReady(users: Users)
  {
    forall i :: 0 <= i < |users| ==> users[i].1.ready
  }

  /** `ROOM.READY`: rewrites the caller's entry with `ready` set (an absent caller gets an entry
      holding only `ready`), and sends `ROOM.GO` to everyone when every user is then ready. Before
      any join there is no room, and `rooms.get(roomId).set` fails. */
  function Ready(rooms: Rooms, sid: Sid): (s: RoomStep)
    ensures RoomId !in rooms ==> s == RoomStep(rooms, [], true)
    ensures RoomId in rooms ==> RoomId in s.rooms && !s.raised
    ensures forall k :: k != RoomId ==> (k in s.rooms <==> k in rooms)
    ensures forall k :: k != RoomId && k in rooms ==> s.rooms[k] == rooms[k]
    ensures RoomId in rooms ==> var users, users' := rooms[RoomId], s.rooms[RoomId];
      && Has(users', sid)
      && Get(users', sid) == (if Has(users, sid) then Get(users, sid).(ready := true) else User(None, true, Undef))
      && |users'| == (if Has(users, sid) then |users| else |users| + 1)
      && (forall i :: 0 <= i < |users| && users[i].0 != sid ==> users'[i] == users[i])
    ensures RoomId in rooms ==> (s.emits != [] <==> AllReady(s.rooms[RoomId]))
    ensures s.emits != [] ==> s.emits == [Emit(ToCaller, Go), Emit(ToOthers, Go)]
  {
    if RoomId !in rooms then RoomStep(rooms, [], true)
    else
      var users := rooms[RoomId];
      var user := if Has(users, sid) then Get(users, sid).(ready := true) else User(None, true, Undef);
      var users' := Put(users, sid, user);
      var go := forall i :: 0 <= i < |users'| ==> users'[i].1.ready;
      RoomStep(rooms[RoomId := users'], if go then [Emit(ToCaller, Go), Emit(ToOthers, Go)] else [], false)
  }

  /** `ROOM.RESULT`: once no user's result is `null`, compares the results of the first two users
      and reports the id of the winner, or `null` for a tie or a value that is not a code. With fewer
      than two users the lookup `entries[1][1]` fails, and before any join so does
      `rooms.get(roomId).entries()`. */
  function Result(rooms: Rooms): (s: RoomStep)
    ensures s.rooms == rooms
    ensures RoomId !in rooms ==> s.emits == [] && s.raised
    ensures RoomId in rooms ==> var users := rooms[RoomId];
      (exists i :: 0 <= i < |users| && users[i].1.result == Null) ==> s.emits == [] && !s.raised
    ensures RoomId in rooms ==> var users := rooms[RoomId];
      (forall i :: 0 <= i < |users| ==> users[i].1.result != Null) ==> (s.raised <==> |users| < 2)
    ensures RoomId in rooms ==> var users := rooms[RoomId];
      (forall i :: 0 <= i < |users| ==> users[i].1.result != Null) && 2 <= |users| ==>
        && |s.emits| == 2 && s.emits[0].to == ToOthers && s.emits[1].to == ToCaller
        && s.emits[0].msg == s.emits[1].msg && s.emits[0].msg.ResultMsg?
        && var winner, h0, h1 := s.emits[0].msg.winner, HandOf(users[0].1.result), HandOf(users[1].1.result);
           && (h0.Some? && h1.Some? && Beats(h0.value, h1.value) ==> winner == Some(users[0].0))
           && (h0.Some? && h1.Some? && Beats(h1.value, h0.value) ==> winner == Some(users[1].0))
           && (h0 == h1 || h0.None? || h1.None? ==> winner == None)
  {
    if RoomId !in rooms then RoomStep(rooms, [], true)
    else
      var users := rooms[RoomId];
      if !(forall i :: 0 <= i < |users| ==> users[i].1.result != Null) then
        RoomStep(rooms, [], false)
      else if |users| < 2 then
        RoomStep(rooms, [], true)
      else
        var w := GetWinner(users[0].1.result, users[1].1.result);
        var winner := match w
          case Some(1) => Some(users[0].0)
          case Some(-1) => Some(users[1].0)
          case _ => None;
        RoomStep(rooms, [Emit(ToOthers, ResultMsg(winner)), Emit(ToCaller, ResultMsg(winner))], false)
  }
}

=== FILE: session.dfy ===
/**
 * The single-session elimination game of serverFlask.py: the module-level `players` dict and
 * `isGameStarted` flag, and the socket.io event handlers as pure transitions. Each handler returns
 * the new state, the events it emitted in order, and whether an exception escaped it (in which case
 * the state is the one reached when it was raised).
 */
module Session {
  import opened Wrappers
  import opened Signs
  import opened Assoc
  import opened Registry
  import opened Resolver

  /** The global state: `players` and `isGameStarted`. */
  datatype Game = Game(players: Players, started: bool)

  /** The messages broadcast with `sio.emit`: `'playersChange'`, `'gameStatusChange'` and `'winner'`. */
  datatype Event =
    | PlayersChange(players: Players)
    | GameStatusChange(started: bool)
    | Winner(sign: Option<Action>)

  /** The result of one handler. `raised` is true when the handler ended with an exception. */
  datatype Step = Step(game: Game, events: seq<Event>, raised: bool)

  /** The state at import time. */
  const Initial: Game := Game([], false)

  /** `getGameStatus`: reports the flag and changes nothing. */
  function GetGameStatus(g: Game): (s: Step)
    ensures s.game == g && !s.raised
    ensures s.events == [GameStatusChange(g.started)]
  {
    Step(g, [GameStatusChange(g.started)], false)
  }

  /** `connect`: registers the sid as not ready, with no sign, and already lost when a game is running. */
  function Connect(g: Game, sid: Sid): (s: Step)
    ensures Has(s.game.players, sid) && Get(s.game.players, sid) == Player(false, g.started, Undefined)
    ensures !Has(g.players, sid) ==> s.game.players == g.players + [(sid, Player(false, g.started, Undefined))]
    ensures forall k :: k != sid ==> (Has(s.game.players, k) <==> Has(g.players, k))
    ensures forall k :: k != sid && Has(g.players, k) ==> Get(s.game.players, k) == Get(g.players, k)
    ensures DistinctKeys(g.players) ==> DistinctKeys(s.game.players)
    ensures s.game.started == g.started && !s.raised
    ensures s.events == [PlayersChange(s.game.players)]
  {
    var ps := Put(g.players, sid, Player(false, g.started, Undefined));
    Step(Game(ps, g.started), [PlayersChange(ps)], false)
  }

  /** `recognize`: stores the sign for the caller. `classId` is the keypoint classifier's output, or
      `None` when the message carries no coordinates. */
  function Recognize(g: Game, sid: Sid, classId: Option<int>): (s: Step)
    requires Has(g.players, sid)
    ensures Has(s.game.players, sid)
    ensures var p, q := Get(g.players, sid), Get(s.game.players, sid);
      q.ready == p.ready && q.losed == p.losed && IsHand(q.sign)
    ensures classId.None? ==> Get(s.game.players, sid).sign == Rock
    ensures classId.Some? && 0 <= classId.value <= 2 ==> Code(Get(s.game.players, sid).sign) == classId.value
    ensures classId.Some? && (classId.value < 0 || 2 < classId.value) ==> Get(s.game.players, sid).sign == Scissors
    ensures |s.game.players| == |g.players|
    ensures forall i :: 0 <= i < |g.players| && g.players[i].0 != sid ==> s.game.players[i] == g.players[i]
    ensures s.game.started == g.started && !s.raised
    ensures s.events == [PlayersChange(s.game.players)]
  {
    var sign := match classId
      case None => Rock
      case Some(id) => FromClassId(id);
    var ps := Put(g.players, sid, Get(g.players, sid).(sign := sign));
    Step(Game(ps, g.started), [PlayersChange(ps)], false)
  }

  /** `gameResult`: marks the game started and consumes the `ready` flag of every player still in
      the game; the rest of what it does is stated by `UndecidedRound` and `DecidedRound`. It fails
      when nobody is left in the game. */
  function GameResult(g: Game): (s: Step)
    ensures |s.game.players| == |g.players|
    ensures forall i :: 0 <= i < |g.players| ==>
      && s.game.players[i].0 == g.players[i].0
      && s.game.players[i].1.sign == g.players[i].1.sign
      && s.game.players[i].1.ready == (g.players[i].1.ready && g.players[i].1.losed)
      && (g.players[i].1.losed ==> s.game.players[i].1.losed)
    ensures s.raised <==> ActiveSigns(g.players) == []
  {
    var signs := ActiveSigns(g.players);
    var cleared := ClearReady(g.players);
    match Resolve(signs)
    case Unrecognised => Step(Game(cleared, true), [], false)
    case Draw => Step(Game(cleared, true), [Winner(None)], false)
    case NoneInGame => Step(Game(cleared, true), [], true)
    case Decided(w) =>
      var after := Eliminate(cleared, w);
      // The elimination loop counts the players in the game not showing `w`.
      var losedCount := |signs| - multiset(signs)[w];
      if losedCount == |signs| - 1 then
        Step(Game(after, false), [GameStatusChange(false), PlayersChange(after)], false)
      else
        Step(Game(after, true), [PlayersChange(after)], false)
  }

  /** A round in which some player in the game has no recognised sign, or in which the players
      show one or all three hands, knocks nobody out and leaves the game started; only the draw
      announces a (missing) winner. */
  lemma UndecidedRound(g: Game)
    requires var signs := ActiveSigns(g.players); !AllRecognized(signs) || |Distinct(signs)| != 2
    ensures var s, signs := GameResult(g), ActiveSigns(g.players);
      && s.game.started
      && (forall i :: 0 <= i < |g.players| ==> s.game.players[i].1.losed == g.players[i].1.losed)
      && ActiveSigns(s.game.players) == signs
      && s.events == (if AllRecognized(signs) && |signs| > 0 then [Winner(None)] else [])
  {
    ActiveSignsKept(g.players, GameResult(g).game.players);
  }

  /** A round in which the players in the game show exactly two hands knocks out exactly those
      not showing the winning hand `w`. */
  lemma DecidedRound(g: Game, w: Action)
    requires var signs := ActiveSigns(g.players);
      AllRecognized(signs) && |Distinct(signs)| == 2 && WinsRound(w, signs)
    ensures var s := GameResult(g);
      && !s.raised
      && (forall i :: 0 <= i < |g.players| ==>
            s.game.players[i].1.losed == (g.players[i].1.losed || g.players[i].1.sign != w))
  {
    DecidedBy(w, ActiveSigns(g.players));
    assert GameResult(g).game.players == Eliminate(ClearReady(g.players), w);
    DecidedPlayers(g.players, w);
  }

  /** A decided round keeps in the game every player that was in and showed the winning hand `w`,
      at least one, and nobody else. */
  lemma DecidedSurvivors(g: Game, w: Action)
    requires var signs := ActiveSigns(g.players);
      AllRecognized(signs) && |Distinct(signs)| == 2 && WinsRound(w, signs)
    ensures var after := GameResult(g).game.players;
      && |ActiveSigns(after)| == multiset(ActiveSigns(g.players))[w] >= 1
      && (forall a :: a in ActiveSigns(after) ==> a == w)
  {
    DecidedBy(w, ActiveSigns(g.players));
    assert GameResult(g).game.players == Eliminate(ClearReady(g.players), w);
    DecidedPlayers(g.players, w);
  }

  /** A decided round ends the game, with a status broadcast, exactly when one player is left in;
      it announces no winner and ends by broadcasting the players. */
  lemma DecidedRoundEnds(g: Game, w: Action)
    requires var signs := ActiveSigns(g.players);
      AllRecognized(signs) && |Distinct(signs)| == 2 && WinsRound(w, signs)
    ensures var s := GameResult(g);
      && (!s.game.started <==> |ActiveSigns(s.game.players)| == 1)
      && (GameStatusChange(false) in s.events <==> |ActiveSigns(s.game.players)| == 1)
      && s.events == (if |ActiveSigns(s.game.players)| == 1
                      then [GameStatusChange(false), PlayersChange(s.game.players)]
                      else [PlayersChange(s.game.players)])
  {
    DecidedSurvivors(g, w);
    DecidedBy(w, ActiveSigns(g.players));
  }

  /** `playerReady`: marks the caller ready and broadcasts, then runs `gameResult` when every
      player still in the game is ready. */
  function PlayerReady(g: Game, sid: Sid): (s: Step)
    requires Has(g.players, sid)
    ensures |s.events| >= 1 && s.events[0].PlayersChange?
    ensures var marked := s.events[0].players;
      && |marked| == |g.players|
      && Has(marked, sid) && Get(marked, sid) == Get(g.players, sid).(ready := true)
      && (forall i :: 0 <= i < |g.players| && g.players[i].0 != sid ==> marked[i] == g.players[i])
    ensures var marked := s.events[0].players;
      !AllActiveReady(marked) ==> s == Step(Game(marked, g.started), [PlayersChange(marked)], false)
    ensures var marked := s.events[0].players;
      AllActiveReady(marked) ==>
        && s.game == GameResult(Game(marked, g.started)).game
        && s.events == [PlayersChange(marked)] + GameResult(Game(marked, g.started)).events
        && (forall i :: 0 <= i < |s.game.players| && !s.game.players[i].1.losed ==> !s.game.players[i].1.ready)
    ensures s.raised <==> AllActiveReady(s.events[0].players) && ActiveSigns(s.events[0].players) == []
  {
    var marked := Put(g.players, sid, Get(g.players, sid).(ready := true));
    if !AllActiveReady(marked) then
      Step(Game(marked, g.started), [PlayersChange(marked)], false)
    else
      var r := GameResult(Game(marked, g.started));
      Step(r.game, [PlayersChange(marked)] + r.events, r.raised)
  }

  /** `restartGame`: stops the game and puts every player back in; emits nothing. */
  function RestartGame(g: Game): (s: Step)
    ensures !s.game.started && !s.raised && s.events == []
    ensures |s.game.players| == |g.players|
    ensures forall i :: 0 <= i < |g.players| ==>
      && s.game.players[i].0 == g.players[i].0
      && !s.game.players[i].1.losed
      && s.game.players[i].1.ready == g.players[i].1.ready
      && s.game.players[i].1.sign == g.players[i].1.sign
    ensures ActiveSigns(s.game.players) == seq(|g.players|, i requires 0 <= i < |g.players| => g.players[i].1.sign)
  {
    var ps := ReviveAll(g.players);
    AllActive(ps);
    Step(Game(ps, false), [], false)
  }

  /** When no player has lost, every player's sign is in the game, in order. */
  lemma {:induction false} AllActive(ps: Players)
    requires forall i :: 0 <= i < |ps| ==> !ps[i].1.losed
    ensures ActiveSigns(ps) == seq(|ps|, i requires 0 <= i < |ps| => ps[i].1.sign)
  {
    if |ps| > 0 {
      AllActive(ps[1..]);
    }
  }

  /** `disconnect`: forgets the sid; when every remaining player in the game is then ready it runs
      `gameResult`, clears `isGameStarted` if more than one player is still in, and broadcasts. */
  function Disconnect(g: Game, sid: Sid): (s: Step)
    requires Has(g.players, sid)
    ensures |s.game.players| == |g.players| - 1
    ensures forall k :: k != sid ==> (Has(s.game.players, k) <==> Has(g.players, k))
    ensures DistinctKeys(g.players) ==> DistinctKeys(s.game.players) && !Has(s.game.players, sid)
    ensures var rest := Remove(g.players, sid);
      !AllActiveReady(rest) ==> s == Step(Game(rest, g.started), [], false)
  {
    var rest := Remove(g.players, sid);
    if !AllActiveReady(rest) then
      Step(Game(rest, g.started), [], false)
    else
      var r := GameResult(Game(rest, g.started));
      SameKeys(rest, r.game.players);
      if r.raised then
        r
      else
        if |ActiveSigns(r.game.players)| > 1 then
          Step(Game(r.game.players, false), r.events + [GameStatusChange(false), PlayersChange(r.game.players)], false)
        else
          Step(r.game, r.events + [PlayersChange(r.game.players)], false)
  }

  /** When the players left in the game are all ready, the departure runs a round: it fails when
      nobody is left in, and otherwise the game is reported started exactly when a single player
      was left in, with a status broadcast whenever it is reported stopped. */
  lemma DisconnectRound(g: Game, sid: Sid)
    requires Has(g.players, sid) && AllActiveReady(Remove(g.players, sid))
    ensures var rest, s := Remove(g.players, sid), Disconnect(g, sid);
      var r := GameResult(Game(rest, g.started));
      && s.game.players == r.game.players
      && r.events <= s.events
      && (s.raised ==> s == r)
      && (!s.raised ==>
            s.events == r.events + (if |ActiveSigns(r.game.players)| > 1 then [GameStatusChange(false)] else [])
                        + [PlayersChange(s.game.players)])
      && (s.raised <==> ActiveSigns(rest) == [])
      && (!s.raised ==>
            && (s.game.started <==> |ActiveSigns(rest)| == 1)
            && (GameStatusChange(false) in s.events <==> !s.game.started)
            && |s.events| >= 1 && s.events[|s.events| - 1] == PlayersChange(s.game.players))
  {
    var rest := Remove(g.players, sid);
    if !GameResult(Game(rest, g.started)).raised {
      RoundLeaves(Game(rest, g.started));
    }
  }

  /** What a round that did not fail leaves behind, in terms of the number of players in the game
      before (`before`) and after (`after`) it. */
  lemma RoundLeaves(g: Game)
    requires !GameResult(g).raised
    ensures var r := GameResult(g);
      var before, after := |ActiveSigns(g.players)|, |ActiveSigns(r.game.players)|;
      && (after > 1 ==> before != 1 && r.game.started)
      && (after <= 1 ==> (r.game.started <==> before == 1))
      && (GameStatusChange(false) in r.events <==> !r.game.started)
  {
    var signs := ActiveSigns(g.players);
    DistinctAtMostLength(signs);
    if AllRecognized(signs) && |Distinct(signs)| == 2 {
      DecidedSurvivors(g, Resolve(signs).winner);
      DecidedRoundEnds(g, Resolve(signs).winner);
    } else {
      UndecidedRound(g);
    }
  }

  /** The outcome of a round does not depend on the order in which the players are stored (the
      order `gameResult` meets them in): any rearrangement of the dict decides the same way. */
  lemma WinnerIgnoresPlayerOrder(ps1: Players, ps2: Players)
    requires multiset(ps1) == multiset(ps2)
    ensures Resolve(ActiveSigns(ps1)) == Resolve(ActiveSigns(ps2))
  {
    ActiveSignsMembers(ps1);
    ActiveSignsMembers(ps2);
    assert forall e :: e in ps1 <==> e in ps2 by {
      forall e ensures e in ps1 <==> e in ps2 {
        assert e in ps1 <==> e in multiset(ps1);
        assert e in ps2 <==> e in multiset(ps2);
      }
    }
    ResolveOrderFree(ActiveSigns(ps1), ActiveSigns(ps2));
  }

  /** `disconnect` as its comment describes it: the game is over once at most one player is left
      in, and no round is attempted when nobody is left in. */
  function DisconnectIntended(g: Game, sid: Sid): (s: Step)
    requires Has(g.players, sid)
    ensures !s.raised
    ensures forall k :: k != sid ==> (Has(s.game.players, k) <==> Has(g.players, k))
    ensures var rest := Remove(g.players, sid);
      !AllActiveReady(rest) ==> s == Step(Game(rest, g.started), [], false)
    ensures DistinctKeys(g.players) ==> !Has(s.game.players, sid)
    ensures AllActiveReady(Remove(g.players, sid)) ==>
      (s.game.started <==> |ActiveSigns(s.game.players)| > 1)
    ensures var rest := Remove(g.players, sid); var r := GameResult(Game(rest, g.started));
      AllActiveReady(rest) && ActiveSigns(rest) != [] ==>
        s.game.players == r.game.players && r.events <= s.events
    ensures var rest := Remove(g.players, sid);
      AllActiveReady(rest) && ActiveSigns(rest) == [] ==>
        s == Step(Game(rest, false), [GameStatusChange(false), PlayersChange(rest)], false)
  {
    var rest := Remove(g.players, sid);
    if !AllActiveReady(rest) then
      Step(Game(rest, g.started), [], false)
    else if ActiveSigns(rest) == [] then
      Step(Game(rest, false), [GameStatusChange(false), PlayersChange(rest)], false)
    else
      var r := GameResult(Game(rest, g.started));
      SameKeys(rest, r.game.players);
      RoundLeaves(Game(rest, g.started));
      CloseRound(r)
  }

  /** The end of the corrected handler, after a round that did not fail: the game stops, with a
      broadcast, when the round left it started with at most one player in, and the dict follows. */
  function CloseRound(r: Step): (s: Step)
    requires !r.raised
    ensures s.game.players == r.game.players && !s.raised
    ensures s.game.started <==> r.game.started && |ActiveSigns(r.game.players)| > 1
    ensures s.events == r.events
      + (if r.game.started && |ActiveSigns(r.game.players)| <= 1 then [GameStatusChange(false)] else [])
      + [PlayersChange(s.game.players)]
  {
    if |ActiveSigns(r.game.players)| <= 1 && r.game.started then
      Step(Game(r.game.players, false), r.events + [GameStatusChange(false), PlayersChange(r.game.players)], false)
    else
      Step(r.game, r.events + [PlayersChange(r.game.players)], false)
  }

  /** The broadcasts of the corrected handler after a round it runs: the round's own, then a status
      change only when the round left the game started with at most one player in, then the dict. */
  lemma IntendedRound(g: Game, sid: Sid)
    requires Has(g.players, sid)
    requires var rest := Remove(g.players, sid); AllActiveReady(rest) && ActiveSigns(rest) != []
    ensures var s, r := DisconnectIntended(g, sid), GameResult(Game(Remove(g.players, sid), g.started));
      s.events == r.events
        + (if r.game.started && |ActiveSigns(r.game.players)| <= 1 then [GameStatusChange(false)] else [])
        + [PlayersChange(s.game.players)]
  {
  }

  /** Two players still in and ready, showing Rock, while a third has not readied: when the third
      leaves, the round is a draw, two players remain in, yet `disconnect` reports the game stopped. */
  lemma DisconnectStopsRunningGame()
    ensures var g := Game([("a", Player(true, false, Rock)), ("b", Player(true, false, Rock)),
                           ("c", Player(false, false, Paper))], true);
      g.players[2].0 == "c" && Has(g.players, "c") &&
      var s := Disconnect(g, "c");
      && |ActiveSigns(s.game.players)| == 2
      && !s.game.started
      && GameStatusChange(false) in s.events
      && DisconnectIntended(g, "c").game.started
  {
    var g := Game([("a", Player(true, false, Rock)), ("b", Player(true, false, Rock)),
                   ("c", Player(false, false, Paper))], true);
    var rest := [("a", Player(true, false, Rock)), ("b", Player(true, false, Rock))];
    FirstIndex(g.players, "c", 2);
    assert Remove(g.players, "c") == rest;
    assert ActiveSigns(rest) == [Rock, Rock];
    assert Distinct([Rock, Rock]) == {Rock};
    UndecidedRound(Game(rest, true));
  }

  /** The first player to connect after start-up is alone in the dict, not ready, still in the game,
      and shows no sign. */
  lemma FirstConnect(sid: Sid)
    ensures Connect(Initial, sid).game == Game([(sid, Player(false, false, Undefined))], false)
  {
    var none: Players := [];
    assert !Has(none, sid);
  }

  /** That player leaving again: `gameResult` runs on an empty game, sets `isGameStarted` and fails,
      so the next player to connect is registered as having lost. */
  lemma LastLeaveLocksOut()
    ensures var g := Game([("a", Player(false, false, Undefined))], false);
      g.players[0].0 == "a" && Has(g.players, "a") &&
      var s := Disconnect(g, "a");
      && s.raised
      && s.game == Game([], true)
      && !DisconnectIntended(g, "a").game.started
  {
    var g := Game([("a", Player(false, false, Undefined))], false);
    FirstIndex(g.players, "a", 0);
    assert Remove(g.players, "a") == [];
  }

  /** Once a failed round has left the game started with nobody in it, whoever connects next is
      registered as already lost, and marking them ready fails again. */
  lemma EmptyStartedGameLocksOut(sid: Sid)
    ensures var g := Connect(Game([], true), sid).game;
      && g.players == [(sid, Player(false, true, Undefined))]
      && g.players[0].0 == sid && Has(g.players, sid)
      && PlayerReady(g, sid).raised
  {
    var none: Players := [];
    assert !Has(none, sid);
    var g := Connect(Game([], true), sid).game;
    FirstIndex(g.players, sid, 0);
  }
}

=== FILE: signs.dfy ===
/**
 * The hand signs of the game (the `Action` enum of serverFlask.py), the `victories` table that
 * says which sign beats which, and the mapping from the classifier's class id to a sign.
 */
module Signs {

  /** The members of the `Action` IntEnum. */
  datatype Action = Paper | Rock | Scissors | Undefined | Unrecognized

  /** The integer value of each `Action` member. */
  function Code(a: Action): int
  {
    match a
    case Paper => 0
    case Rock => 1
    case Scissors => 2
    case Undefined => 777
    case Unrecognized => 666
  }

  /** Paper, Rock and Scissors: the only signs that can take part in deciding a round. */
  predicate IsHand(a: Action)
  {
    a == Paper || a == Rock || a == Scissors
  }

  /** The `victories` table: each key maps to the list of signs it defeats. */
  const Victories: map<Action, seq<Action>> :=
    map[Scissors := [Paper], Paper := [Rock], Rock := [Scissors]]

  /** `a` beats `b` when `b` is listed under key `a` of the table. */
  predicate Beats(a: Action, b: Action)
  {
    a in Victories && b in Victories[a]
  }

  /** Every sign the table mentions, as key or as defeated sign, is a hand. */
  lemma VictoriesOnlyHands()
    ensures Victories.Keys == {Paper, Rock, Scissors}
    ensures Undefined !in Victories && Unrecognized !in Victories
    ensures forall a, b :: Beats(a, b) ==> IsHand(a) && IsHand(b)
  {
  }

  /** The table is the rock-paper-scissors cycle: irreflexive, asymmetric, and each hand beats
      exactly one sign and is beaten by exactly one. */
  lemma VictoriesIsCycle()
    ensures Beats(Scissors, Paper) && Beats(Paper, Rock) && Beats(Rock, Scissors)
    ensures forall a :: !Beats(a, a)
    ensures forall a, b :: Beats(a, b) ==> !Beats(b, a)
    ensures forall a, b, c :: Beats(a, b) && Beats(a, c) ==> b == c
    ensures forall a, b, c :: Beats(a, c) && Beats(b, c) ==> a == b
    ensures forall a :: IsHand(a) ==> exists b :: Beats(a, b)
    ensures forall b :: IsHand(b) ==> exists a :: Beats(a, b)
  {
    assert Beats(Scissors, Paper) && Beats(Paper, Rock) && Beats(Rock, Scissors);
  }

  /** Of two different hands exactly one beats the other. */
  lemma HandsComparable(a: Action, b: Action)
    requires IsHand(a) && IsHand(b) && a != b
    ensures Beats(a, b) != Beats(b, a)
  {
  }

  /** The class id returned by the keypoint classifier, mapped the way `recognize` maps it:
      1 is Rock, 0 is Paper and every other id is Scissors. */
  function FromClassId(id: int): (a: Action)
    ensures IsHand(a)
    ensures 0 <= id <= 2 ==> Code(a) == id
    ensures (id < 0 || 2 < id) ==> a == Scissors
  {
    if id == 1 then Rock
    else if id == 0 then Paper
    else Scissors
  }
}

=== FILE: wrappers.dfy ===
/** The optional value used wherever the source has `None` (Python) or `null`/`undefined` (JavaScript). */
module Wrappers {

  datatype Option<+T> = None | Some(value: T)
}
